=== FILE: README.md ===
# cxx11-server: the HTTP message codec and the MIME table, in Dafny

This project models the hand-rolled HTTP/1.1 codec of a small C++11 web
server and the table it uses to pick a `Content-Type`:

- `http::Method`, `http::Version` and the functions that name them and look
  names up;
- `http::Request`: constructor, `setHeader`, `serialize` and the static
  `deserialize` that turns received bytes into a request;
- `http::Response`: constructor with its three default headers,
  `setHeader`, `setData`, `getData` and `serialize`;
- `MIMEType::toString` and `MIME::getMIMEType` over the four-entry
  extension table.

Modules:

| file | module | contents |
|---|---|---|
| errors.dfy | `Errors` | `Error`, `Option`, `Result` |
| text.dfy | `Text` | whitespace tokenizing as `operator>>` does it, the `"\r\n"` search, `find_last_of`, `std::to_string` of a byte, `std::string` ordering |
| headers.dfy | `Headers` | `std::map<std::string, std::string>` as a strictly ascending association list; `insert` (first write wins) and `at` |
| http.dfy | `Http` | the enumerations, `Request`, `Response`, serialization and parsing |
| roundtrip.dfy | `HttpRoundTrip` | what serializing and parsing do to each other, and the places where the codec departs from HTTP/1.1 |
| mime.dfy | `Mime` | the MIME table and the extension lookup |

Modelling choices:

- C++ exceptions (`at` on a missing key, `substr(npos)`) and undefined
  behaviour (`lines.front()` on an empty deque, reading a response body
  before `setData`) become a `Failure` carrying an `Error` that names the
  cause, so every failure inside the codec is a value, not a precondition.
  The only input condition is `Http.SetData`'s `n <= |d|` (the caller must
  hand over `n` readable bytes); the other `requires` clauses are the class
  invariants (`Http.RequestInvariant`, `Http.ResponseInvariant`: a sorted
  header map and a body whose size matches), which every value built by the
  constructors and setters satisfies.
- A `char` stands for one byte; strings and buffers are `seq<char>`.
- Bytes the C++ code allocates but never writes are parameters: `gap` in
  `SerializeRequest` (the byte between text and body), `pad` in `SetData`
  (the last byte of the body buffer) and `tail` in `SerializeResponse` (the
  last byte of the output buffer). No lemma fixes their value.
- Header maps iterate in ascending key order, which is the order
  serialization writes header lines in.
- The version a request line carries is checked and then dropped: the
  class has no version setter, so every `Request` says HTTP/1.1.

Where the code departs from its own comments or from HTTP/1.1, the model
follows the code:

- Headers: `std::map::insert` keeps the first value given for a key
  (`Http.SetRequestHeader`, `HttpRoundTrip.FirstHeaderWins`). So setting
  `Content-Type` to `image/gif` on a fresh response, as the connection
  handler does for `/favicon.ico`, leaves `text/html; charset=UTF-8`
  (`HttpRoundTrip.DefaultContentTypeKept`).
- The comment at src/http.cpp:124-125 says the line loop stops at a line
  that is only "\r\n"; the loop stops at any line of at most two
  characters, and drops only its first two characters
  (`HttpRoundTrip.ShortLineEndsHeaderBlock`).
- Section 3 of RFC 9112 defines the request line as method, SP,
  request-target, SP, HTTP-version: exactly three parts. The parser needs
  at least three whitespace tokens and ignores any further ones
  (`Http.ParseRequestLine`).
- A header whose key and value are both empty is written as the line
  ": ", which the parser takes as the end of the header block, so the
  request read back has no headers and a body that starts with
  "\r\n\r\n" (`HttpRoundTrip.EmptyHeaderEndsBlock`).
- Header lines are split on whitespace, not at the colon that section 5 of
  RFC 9112 prescribes, so a key keeps its colon
  (`HttpRoundTrip.HeaderKeyKeepsColon`).
- The body does not keep its exact length: a parsed body is followed by the
  string's NUL and `data_size` is one more than the body; `setData(d, n)`
  stores `n + 1` bytes, the last one unwritten; `Request::serialize` places
  an unwritten byte before the body.

## Model

| member | source | states |
|---|---|---|
| Http.MethodToString | src/http.cpp:11-33 | every method's name is a single token of capital letters |
| Http.VersionToString | src/http.cpp:46-56 | every version's label is a single token starting with "HTTP/" |
| Http.MethodNamesRoundTrip | src/http.cpp:11-44 | looking up the name `method_as_string` gives a method returns that method, for all nine |
| Http.StringToMethod | src/http.cpp:35-44 | a token is accepted only if it is exactly some method's name, and any other token fails with `UnknownMethod` naming it |
| Http.VersionNamesRoundTrip | src/http.cpp:46-65 | looking up the label of a version returns that version, for all three |
| Http.StringToVersion | src/http.cpp:58-65 | a token is accepted only if it is exactly some version's label; any other fails with `UnknownVersion` |
| Http.EnumerationsComplete | include/http.h:10-28 | there are exactly nine methods and three versions, each listed once |
| Http.NewRequest | src/http.cpp:67-71 | a new request has the given method and target, version HTTP/1.1, no headers and an empty body, and satisfies the request invariant |
| Http.SetRequestHeader | src/http.cpp:101-103 | a new key gets the value, an existing key keeps its old value, every other key and every other field is unchanged, and the header map stays sorted |
| HttpRoundTrip.FirstHeaderWins | src/http.cpp:101-103 | of two `setHeader` calls with one key, the first value stays |
| Headers.Insert | src/http.cpp:101-103 | `std::map::insert`: keeps keys strictly ascending, adds the entry only when the key is absent, and changes no other lookup |
| Headers.InsertBelowFirst | src/http.cpp:101-103 | a key ordered below every stored key is inserted in front, so iteration visits it first |
| Headers.SortedAscending | include/http.h:37 | in a header map every pair of keys is in strictly ascending order, so keys are unique |
| Headers.LookupStoredKey | include/http.h:37 | looking up any stored key of a header map finds that key's entry |
| Headers.Lookup | include/http.h:37 | looking up a key finds nothing exactly when no entry holds that key, and otherwise the value of the first entry that holds it |
| Headers.InsertAll | src/http.cpp:156-166 | a run of inserts leaves the original values and adds, for each new key, the first value given for it |
| Headers.At | src/http.cpp:97-99 | `getHeader` returns a value stored under the key, or fails with `MissingHeader` exactly when the key is absent |
| Http.RequestLine | src/http.cpp:106-108 | the request line starts with the method's name and a space, is longer than name, target and two spaces together, and holds no carriage return when the target holds none |
| Http.HeaderLines | src/http.cpp:109-231 | one line per header in the map's order, each the key, the separator and the value; requests use ": " (lines 110-112), responses " : " (lines 229-231) |
| Http.RequestText | src/http.cpp:106-114 | the text starts with the request line and its "\r\n" and ends with "\r\n\r\n" |
| Http.SerializeRequest | src/http.cpp:105-120 | the returned count is text length + 1 + body size and equals the buffer's length; the buffer is the text, then the one unwritten byte, then the body |
| HttpRoundTrip.FreshRequestWire | src/http.cpp:105-120 | a request fresh from the constructor serializes to "METHOD target HTTP/1.1\r\n\r\n" and one unwritten byte |
| HttpRoundTrip.GapIsTheOnlyUnwrittenByte | src/http.cpp:115-117 | two serializations of one request agree on every byte except the one between text and body |
| HttpRoundTrip.RequestFraming | src/http.cpp:105-137 | for any target, keys and values without carriage returns, and no header whose key and value are both empty, the framing loop takes back the request line and one line per header in key order, and leaves the gap byte and the body |
| HttpRoundTrip.EmptyHeaderEndsBlock | src/http.cpp:109-137 | a header with empty key and value is written as the line ": ", which ends the header block when parsed: only the request line is taken, and that line's "\r\n", the empty line, the gap byte and the body all become body |
| Http.SplitHead | src/http.cpp:126-137 | the lines taken are longer than two characters and hold no "\r\n", they are a prefix of the input, the first remaining line is at most two characters long (or there is none), and the body is the rest less two characters |
| Http.Drop | src/http.cpp:135-137 | `erase(0, n)` leaves n characters fewer, or nothing when the string is shorter |
| Http.DropIsSuffix | src/http.cpp:135-137 | what `erase(0, n)` leaves is the string's tail, in order |
| HttpRoundTrip.SplitHeadOfLines | src/http.cpp:131-137 | lines longer than two characters, each followed by "\r\n", are taken back exactly, and the body is what follows less two characters |
| HttpRoundTrip.SplitHeadAfterLine | src/http.cpp:131-136 | a line longer than two characters without "\r\n", followed by "\r\n", is taken as the first line, and the loop goes on with what follows as if from the start |
| HttpRoundTrip.ShortLineEndsHeaderBlock | src/http.cpp:131-137 | a line of one or two characters ends the header block and only its first two characters are dropped, so later header lines become body |
| Text.Tokens | src/http.cpp:142-146 | every token extracted by `>>` is a non-empty run without whitespace |
| Text.TokensCoverLine | src/http.cpp:142-146 | the tokens joined together are exactly the non-whitespace characters of the line |
| Text.TokensOfJoinWords | src/http.cpp:142-146 | tokenizing words joined by single spaces gives the words back |
| Text.TokensOfSpace | src/http.cpp:144-146 | a line of whitespace only yields no token |
| Text.TokensOfSpacedWord | src/http.cpp:144-146 | leading whitespace is skipped, and a word ended by whitespace or by the end of the line is the next token, whatever follows |
| Text.FindCRLF | src/http.cpp:131 | the index found starts a "\r\n" and no earlier index does; none found means the string holds no "\r\n" |
| Http.ParseRequestLine | src/http.cpp:139-153 | fails with `TooFewTokens` below three tokens, with `UnknownVersion` on an unknown third token whatever the first, and otherwise succeeds exactly when the first token names a method, returning that method and the second token |
| HttpRoundTrip.VersionCheckedFirst | src/http.cpp:148-149 | with an unknown version token the parse fails on the version, whatever the method token |
| HttpRoundTrip.UnknownMethodFails | src/http.cpp:149 | with a known version an unknown method token fails with `UnknownMethod` |
| HttpRoundTrip.ParsedVersionDiscarded | src/http.cpp:148-153 | a request line naming any of the three versions parses to a request saying HTTP/1.1 |
| HttpRoundTrip.DeserializeRequestLineOnly | src/http.cpp:122-172 | for a request line of three words and no headers: version failure, else method failure, else the request with an empty header map and the rest less two characters plus a NUL as body |
| Http.ParseHeaderLines | src/http.cpp:155-166 | succeeds exactly when every line has at least two tokens, giving the inserts of each line's first two tokens in order; otherwise fails naming a line with fewer |
| Http.HeaderPairs | src/http.cpp:162-165 | one (key, value) pair per header line, in order: the line's first and second tokens |
| HttpRoundTrip.RequestHeaderLineTokens | src/http.cpp:111 | a written "k: v" line tokenizes to "k:" and v, so the colon stays on the key |
| HttpRoundTrip.HeaderKeyKeepsColon | src/http.cpp:156-166 | a request with one "k: x" header line parses with the single header ("k:", x) and a body of one NUL |
| Http.DeserializeRequest | src/http.cpp:122-172 | succeeds exactly when there is a first line that parses and every further line has two tokens; no line at all is `NoRequestLine`; on success the request satisfies the invariant, its method and target are the first two tokens, the headers look up as the first two tokens of the further lines, inserted in order; and the body is the rest plus a NUL with size one more |
| Http.ParseHead | src/http.cpp:139-172 | for the lines the loop took and the remaining bytes: no line is `NoRequestLine`; success exactly when the first line parses and every further line has two tokens; the request then has the invariant, method and target from the first two tokens, headers looking up as the pairs of the further lines inserted in order, and the bytes plus a NUL as body |
| HttpRoundTrip.RequestRoundTrip | src/http.cpp:105-172 | serializing then parsing a request with one-token target, keys and values gives the same method and target, version HTTP/1.1, each header under its key with ':' appended and no other, and the gap byte, the body and a NUL as body |
| HttpRoundTrip.RequestRoundTripValue | src/http.cpp:105-172 | the same round trip as one equation, with the headers re-inserted under colon-suffixed keys |
| HttpRoundTrip.HeaderlessRoundTrip | src/http.cpp:105-172 | without headers the round trip gives back method and target, HTTP/1.1 and no headers |
| HttpRoundTrip.LookupColonized | src/http.cpp:111 | in the colon-suffixed entries a key ending in ':' finds what the key without it found, and any other key finds nothing |
| Http.DefaultResponseHeaders | src/http.cpp:241-247 | exactly three sorted headers: Content-Type text/html; charset=UTF-8, Content-Encoding UTF-8, Accept */* |
| HttpRoundTrip.DefaultHeadersInOrder | src/http.cpp:241-247 | the default headers are iterated as Accept, Content-Encoding, Content-Type |
| Http.NewResponse | src/http.cpp:174-177 | a new response has the given code and text, version HTTP/1.1, the default headers and no body |
| Http.SetResponseHeader | src/http.cpp:207-209 | like the request's: insert-only, nothing else changes |
| HttpRoundTrip.DefaultContentTypeKept | src/http.cpp:207-209 | setting Content-Type on a fresh response leaves text/html; charset=UTF-8 |
| Http.SetData | src/http.cpp:217-221 | the body size becomes n + 1, its first n bytes are the given ones, its last byte is the unwritten one, headers and status are untouched |
| Http.GetData | src/http.cpp:211-215 | reading the body fails with `DataUnset` exactly when no body was set, and otherwise returns a copy of the stored bytes |
| HttpRoundTrip.GetDataAfterSetData | src/http.cpp:211-221 | reading the body after `setData(d, n)` returns the n bytes followed by the unwritten byte |
| Http.StatusLine | src/http.cpp:225-228 | the status line starts with the version label and a space, is longer than label, status text and two spaces together, and holds no carriage return when the status text holds none |
| Http.ResponseHead | src/http.cpp:224-232 | the head starts with the status line and its "\r\n" and ends with "\r\n\r\n" |
| Http.SerializeResponse | src/http.cpp:223-239 | fails exactly when no body was set; otherwise the buffer is the head followed by the body, the count covers exactly those, and the buffer is one byte longer |
| HttpRoundTrip.ResponseSendsUnwrittenByte | src/http.cpp:217-239 | the bytes a response reports are the head, the n data bytes and the unwritten last byte of the body; the buffer's last byte lies past the count |
| HttpRoundTrip.FreshStatusLine | src/http.cpp:225-228 | the status line of a response from the constructor is exactly "HTTP/1.1", a space, the code in decimal, a space and the status text |
| HttpRoundTrip.StatusLineTokens | src/http.cpp:225-228 | the status line starts with HTTP/1.1, then a numeral of at most three digits whose value is the status code, then the words of the status text |
| Text.Decimal | src/http.cpp:226 | `std::to_string` gives a digit string with no leading zero whose value is the number |
| HttpRoundTrip.ResponseHeaderLineTokens | src/http.cpp:230 | a written "k : v" response header line tokenizes to three tokens, k, ":" and v |
| HttpRoundTrip.ResponseFraming | src/http.cpp:223-239 | when text, keys and values hold no carriage return, the framing loop finds the status line, one line per header in key order, and exactly the body |
| Mime.MimeType.ToString | src/mime.cpp:9-11 | the result is the type, a '/', then the subtype |
| Mime.ToStringInjective | src/mime.cpp:9-11 | for types without '/', different media types print differently |
| Mime.TableContents | src/mime.cpp:13-20 | the table holds exactly .js, .css, .html and .ico, with their four media types |
| Mime.Extension | src/mime.cpp:23 | no extension exactly when the resource has no '.'; otherwise a suffix of the resource that starts with its only '.' |
| Mime.ExtensionOfSuffix | src/mime.cpp:23 | the extension of stem + ".x" (x without '.') is ".x" whatever the stem holds |
| Mime.GetMimeType | src/mime.cpp:22-26 | success only for an extension in the table and only with one of the four media types; no '.' fails with `NoExtension`; any other failure names the unknown extension |
| Mime.MimeOfKnownExtension | src/mime.cpp:22-26 | any resource ending in a listed extension gets that extension's media type |
| Mime.MimeOfUnlistedExtension | src/mime.cpp:22-26 | a resource ending in an extension outside the table fails with that extension |
| Mime.UpperCaseExtensionFails | src/mime.cpp:14-24 | matching is case-sensitive: ".HTML" has no media type |
| Mime.DirectoryDotFails | src/mime.cpp:23-24 | a dot in a directory name above a dot-less file yields an extension containing '/', which fails |
| Text.LastIndexOf | src/mime.cpp:23 | `find_last_of`: the index holds the character and no later index does; none found means the character does not occur |
| Text.LessTransitive | include/http.h:37 | `std::string` ordering of header keys is transitive |
| Text.LessTotal | include/http.h:37 | two different keys are always ordered one way or the other |
| Text.LessAfterPrefix | include/http.h:37 | two keys with a common prefix are ordered as what follows the prefix is, as `std::string` comparison orders them |

## Left out

- The thread pool (src/threadpool.cpp) and the connection handler in src/main.cpp: sockets, reading and writing, threads and printing are I/O and concurrency. The router (include/router.h) and the `DumbRouter` stand-in in main.cpp are left out with them.
- The `Content-Length` header main.cpp adds from the body size: it is computed in the connection handler, not in the codec.
- The getters and the setters `setMethod`, `setTarget`, `setStatusCode` and `setStatusText`: each reads or replaces one field, which is record access and update on the datatypes.
- `method_as_string` and `version_as_string` return "ERROR" for a value outside the enumeration; a Dafny datatype has no such value.
- Http.DeserializeRequest: `start` and `end` are `int`; inputs longer than 2^31 − 1 bytes, where the conversion from `size_t` would wrap, are not modelled.
- Http.SetData: `size + 1` would wrap for `size` = 2^64 − 1; lengths are unbounded here.
- Http.SetData: the caller must supply `n` readable bytes (`n <= |d|`); reading past the caller's array is undefined behaviour and not modelled.
- Http.SerializeRequest: `memcpy` from a null body with length 0 (a request fresh from the constructor) is taken to copy nothing.
- Http.ParseHeaderLines: `tokens.at(0)` and `tokens.at(1)` are arguments of one call, so which is evaluated first is unspecified; a line with fewer than two tokens fails with `TooFewTokens(line, 2)` either way.
- Memory ownership (`unique_ptr`, moves, `memcpy` to raw buffers) is reduced to the byte sequences it produces.
- Text encodings: a `char` is one byte; there is no locale other than "C".

=== FILE: errors.dfy ===
/** Failure values for the HTTP codec and the MIME table.

    The C++ code reports failure by throwing (`std::out_of_range` from
    `at` and `substr`) or by reaching undefined behaviour; both become a
    `Failure` carrying the reason, so that failures inside the codec are
    values rather than preconditions. */
module Errors {

  /** Every way a modelled operation can fail. */
  datatype Error =
    | NoRequestLine                             // lines.front() on an empty deque (undefined behaviour)
    | TooFewTokens(line: string, needed: nat)   // tokens.at(i) past the end of the token list
    | UnknownMethod(token: string)              // string_to_method: map.at on an unknown key
    | UnknownVersion(token: string)             // string_into_version: map.at on an unknown key
    | MissingHeader(key: string)                // headers.at on an absent key
    | DataUnset                                 // a Response's data read before setData (undefined behaviour)
    | NoExtension(resource: string)             // substr(npos) when the resource has no '.'
    | UnknownExtension(ext: string)             // extMIME.at on an extension outside the table

  datatype Option<+T> = None | Some(value: T)

  /** A value, or the reason there is none; usable with `:-`. */
  datatype Result<+T> = Success(value: T) | Failure(error: Error) {

    predicate IsFailure() {
      Failure?
    }

    function PropagateFailure<U>(): Result<U>
      requires Failure?
    {
      Failure(error)
    }

    function Extract(): T
      requires Success?
    {
      value
    }
  }
}

=== FILE: headers.dfy ===
/** The header collection of a message, a `std::map<std::string, std::string>`.

    It is modelled as an association list whose keys are strictly
    ascending in `std::string` order: that ordering is at once the map's
    uniqueness invariant and the order a range-for visits its entries in,
    which is the order serialization writes header lines in. */
module Headers {
  import opened Errors
  import opened Text

  type Entries = seq<(string, string)>

  /** Neighbouring keys strictly ascend. */
  predicate Sorted(h: Entries) {
    |h| <= 1 || (Less(h[0].0, h[1].0) && Sorted(h[1..]))
  }

  /** The value of the first entry whose key is `k`, if any. */
  function Lookup(h: Entries, k: string): (r: Option<string>)
    ensures r.None? <==> forall i :: 0 <= i < |h| ==> h[i].0 != k
    ensures r.Some? ==> exists i :: 0 <= i < |h| && h[i] == (k, r.value)
                                    && forall j :: 0 <= j < i ==> h[j].0 != k
  {
    if |h| == 0 then None
    else if h[0].0 == k then Some(h[0].1)
    else
      var r := Lookup(h[1..], k);
      assert forall i :: 1 <= i < |h| ==> h[i] == h[1..][i - 1];
      r
  }

  /** In a sorted list every pair of entries is in ascending key order, not
      only neighbours: keys are unique and iteration visits them from least
      to greatest. */
  lemma {:induction false} SortedAscending(h: Entries)
    requires Sorted(h)
    ensures forall i, j :: 0 <= i < j < |h| ==> Less(h[i].0, h[j].0)
  {
    if |h| > 1 {
      SortedAscending(h[1..]);
      forall i, j | 0 <= i < j < |h|
        ensures Less(h[i].0, h[j].0)
      {
        if i > 0 {
          assert h[i] == h[1..][i - 1] && h[j] == h[1..][j - 1];
        } else if j > 1 {
          assert h[1] == h[1..][0] && h[j] == h[1..][j - 1];
          LessTransitive(h[0].0, h[1].0, h[j].0);
        }
      }
    }
  }

  /** Looking up any stored key of a sorted list finds that entry's value. */
  lemma LookupStoredKey(h: Entries, i: nat)
    requires Sorted(h) && i < |h|
    ensures Lookup(h, h[i].0) == Some(h[i].1)
  {
    SortedAscending(h);
    var r := Lookup(h, h[i].0);
    var j :| 0 <= j < |h| && h[j] == (h[i].0, r.value);
    if j < i {
      LessIrreflexive(h[i].0);
    } else if i < j {
      LessIrreflexive(h[i].0);
    }
  }

  /** A key below the least key of a sorted list is not in it. */
  lemma {:induction false} AbsentBelowFirst(h: Entries, k: string)
    requires Sorted(h) && |h| > 0 && Less(k, h[0].0)
    ensures Lookup(h, k).None?
  {
    LessIrreflexive(k);
    if |h| > 1 {
      LessTransitive(k, h[0].0, h[1].0);
      AbsentBelowFirst(h[1..], k);
    }
  }

  /** What one `std::map::insert(k, v)` does to the lookups: a new key gets
      `v`, an existing key keeps its old value, every other key is
      untouched. */
  ghost predicate InsertedOnce(h: Entries, h': Entries, k: string, v: string) {
    forall j :: Lookup(h', j) == if j == k && Lookup(h, k).None? then Some(v) else Lookup(h, j)
  }

  /** `std::map::insert`: first write wins. */
  function Insert(h: Entries, k: string, v: string): (r: Entries)
    requires Sorted(h)
    ensures Sorted(r)
    ensures InsertedOnce(h, r, k, v)
    ensures Lookup(h, k).Some? ==> r == h
    ensures |r| == if Lookup(h, k).None? then |h| + 1 else |h|
    ensures |r| > 0 && (r[0].0 == k || (|h| > 0 && r[0].0 == h[0].0))
  {
    if |h| == 0 then [(k, v)]
    else if h[0].0 == k then h
    else if Less(k, h[0].0) then
      AbsentBelowFirst(h, k);
      [(k, v)] + h
    else
      LessTotal(k, h[0].0);
      var t := Insert(h[1..], k, v);
      var r := [h[0]] + t;
      assert r[1..] == t;
      r
  }

  /** A key below every stored key goes in front. */
  lemma InsertBelowFirst(h: Entries, k: string, v: string)
    requires Sorted(h) && |h| > 0 && Less(k, h[0].0)
    ensures Insert(h, k, v) == [(k, v)] + h
  {
    LessIrreflexive(k);
  }

  /** A sequence of inserts, in order: the map the repeated `setHeader`
      calls of the parser build. */
  function InsertAll(h: Entries, es: Entries): (r: Entries)
    requires Sorted(h)
    ensures Sorted(r)
    ensures forall j :: Lookup(r, j) == if Lookup(h, j).Some? then Lookup(h, j) else Lookup(es, j)
    decreases |es|
  {
    if |es| == 0 then h
    else
      var r := InsertAll(Insert(h, es[0].0, es[0].1), es[1..]);
      assert forall j :: Lookup(es, j) == if es[0].0 == j then Some(es[0].1) else Lookup(es[1..], j);
      r
  }

  /** `std::map::at`: the value stored under `k`, or `std::out_of_range`. */
  function At(h: Entries, k: string): (r: Result<string>)
    ensures r.Success? ==> exists i :: 0 <= i < |h| && h[i] == (k, r.value)
    ensures r.Failure? ==> r.error == MissingHeader(k) && forall i :: 0 <= i < |h| ==> h[i].0 != k
  {
    match Lookup(h, k)
    case Some(v) => Success(v)
    case None => Failure(MissingHeader(k))
  }
}

=== FILE: http.dfy ===
/** The hand-rolled HTTP message codec: methods and versions and their
    names, the `Request` a server parses from received bytes (and can write
    back out), and the `Response` it builds and writes.

    The code is modelled as written, including where it departs from
    HTTP/1.1: header lines are split on whitespace rather than at the colon
    section 5 of RFC 9112 prescribes, a "blank" line is any line of at most
    two characters, the parsed version is dropped, and body lengths carry
    one byte more than the body. */
module Http {
  import opened Errors
  import opened Text
  import opened Headers

  datatype Method = GET | HEAD | POST | PUT | DELETE | CONNECT | OPTIONS | TRACE | PATCH

  datatype Version = HTTP1_1 | HTTP2 | HTTP3

  /** `uint8_t`, the type of a response status code. */
  newtype uint8 = x: int | 0 <= x < 256

  /** Every method, in declaration order. */
  const Methods: seq<Method> := [GET, HEAD, POST, PUT, DELETE, CONNECT, OPTIONS, TRACE, PATCH]

  /** Every version, in declaration order. */
  const Versions: seq<Version> := [HTTP1_1, HTTP2, HTTP3]

  // ---------------------------------------------------------------------
  // Names of methods and versions
  // ---------------------------------------------------------------------

  /** `method_as_string`: each name is one token of capital letters. */
  function MethodToString(m: Method): (s: string)
    ensures IsWord(s) && forall i :: 0 <= i < |s| ==> 'A' <= s[i] <= 'Z'
  {
    match m
    case GET => "GET"
    case HEAD => "HEAD"
    case POST => "POST"
    case PUT => "PUT"
    case DELETE => "DELETE"
    case CONNECT => "CONNECT"
    case OPTIONS => "OPTIONS"
    case TRACE => "TRACE"
    case PATCH => "PATCH"
  }

  /** `string_to_method`: `unordered_map::at` over the nine names, throwing
      on any other token (the match is exact and case-sensitive). */
  function StringToMethod(s: string): (r: Result<Method>)
    ensures r.Success? ==> MethodToString(r.value) == s
    ensures r.Failure? ==> r.error == UnknownMethod(s) && forall m :: MethodToString(m) != s
  {
    if s == "GET" then Success(GET)
    else if s == "HEAD" then Success(HEAD)
    else if s == "POST" then Success(POST)
    else if s == "PUT" then Success(PUT)
    else if s == "DELETE" then Success(DELETE)
    else if s == "CONNECT" then Success(CONNECT)
    else if s == "OPTIONS" then Success(OPTIONS)
    else if s == "TRACE" then Success(TRACE)
    else if s == "PATCH" then Success(PATCH)
    else Failure(UnknownMethod(s))
  }

  /** `version_as_string`: each label is one token starting "HTTP/". */
  function VersionToString(v: Version): (s: string)
    ensures IsWord(s) && |s| > 5 && s[..5] == "HTTP/"
  {
    match v
    case HTTP1_1 => "HTTP/1.1"
    case HTTP2 => "HTTP/2"
    case HTTP3 => "HTTP/3"
  }

  /** `string_into_version`: `unordered_map::at` over the three labels. */
  function StringToVersion(s: string): (r: Result<Version>)
    ensures r.Success? ==> VersionToString(r.value) == s
    ensures r.Failure? ==> r.error == UnknownVersion(s) && forall v :: VersionToString(v) != s
  {
    if s == "HTTP/1.1" then Success(HTTP1_1)
    else if s == "HTTP/2" then Success(HTTP2)
    else if s == "HTTP/3" then Success(HTTP3)
    else Failure(UnknownVersion(s))
  }

  /** Naming a method and looking the name up gives the method back, so
      the nine names are also pairwise distinct. */
  lemma MethodNamesRoundTrip(m: Method)
    ensures StringToMethod(MethodToString(m)) == Success(m)
  {
  }

  lemma VersionNamesRoundTrip(v: Version)
    ensures StringToVersion(VersionToString(v)) == Success(v)
  {
  }

  /** The enumerations have exactly nine and three members, each listed once. */
  lemma EnumerationsComplete()
    ensures |Methods| == 9 && forall m :: m in Methods
    ensures forall i, j :: 0 <= i < j < |Methods| ==> Methods[i] != Methods[j]
    ensures |Versions| == 3 && forall v :: v in Versions
    ensures forall i, j :: 0 <= i < j < |Versions| ==> Versions[i] != Versions[j]
  {
    forall m: Method
      ensures m in Methods
    {
      match m
      case GET => assert Methods[0] == m;
      case HEAD => assert Methods[1] == m;
      case POST => assert Methods[2] == m;
      case PUT => assert Methods[3] == m;
      case DELETE => assert Methods[4] == m;
      case CONNECT => assert Methods[5] == m;
      case OPTIONS => assert Methods[6] == m;
      case TRACE => assert Methods[7] == m;
      case PATCH => assert Methods[8] == m;
    }
    forall v: Version
      ensures v in Versions
    {
      match v
      case HTTP1_1 => assert Versions[0] == v;
      case HTTP2 => assert Versions[1] == v;
      case HTTP3 => assert Versions[2] == v;
    }
  }

  // ---------------------------------------------------------------------
  // Messages
  // ---------------------------------------------------------------------

  /** A body: a heap buffer (`data`) and its separately stored length
      (`data_size`). */
  datatype Buffer = Buffer(bytes: seq<char>, size: nat) {
    /** `data_size` counts exactly the bytes the buffer holds. */
    predicate Valid() {
      size == |bytes|
    }
  }

  datatype Request = Request(httpMethod: Method, target: string, version: Version, headers: Entries, data: Buffer)

  /** `data` is null and `data_size` undefined until `setData` is called. */
  datatype Response = Response(version: Version, statusCode: uint8, statusText: string, headers: Entries, data: Option<Buffer>)

  /** What every Request the class lets one build satisfies: a well-formed
      header map, a body whose size is right, and version HTTP/1.1 (the
      class has no way to set any other). */
  predicate RequestInvariant(r: Request) {
    Sorted(r.headers) && r.data.Valid() && r.version == HTTP1_1
  }

  /** The same for a Response, whose body may not be set yet. */
  predicate ResponseInvariant(r: Response) {
    Sorted(r.headers) && r.version == HTTP1_1 && (r.data.Some? ==> r.data.value.Valid())
  }

  /** The serialized form: the buffer handed back through `out` and the
      byte count the call returns. */
  datatype Wire = Wire(buffer: seq<char>, length: nat)

  /** Each line followed by "\r\n". */
  function Lines(ls: seq<string>): string {
    if |ls| == 0 then [] else ls[0] + CRLF + Lines(ls[1..])
  }

  /** Written lines start with the first line and its "\r\n", and end in
      "\r\n". */
  lemma {:induction false} LinesShape(ls: seq<string>)
    requires |ls| > 0
    ensures Lines(ls)[..|ls[0]| + 2] == ls[0] + CRLF
    ensures |Lines(ls)| >= 2 && Lines(ls)[|Lines(ls)| - 2..] == CRLF
  {
    var t := Lines(ls[1..]);
    assert Lines(ls) == ls[0] + CRLF + t;
    if |ls| > 1 {
      LinesShape(ls[1..]);
      assert Lines(ls)[|Lines(ls)| - 2..] == t[|t| - 2..];
    } else {
      assert t == [];
    }
  }

  /** One `key ++ sep ++ value` line per entry, in the map's order. */
  function HeaderLines(h: Entries, sep: string): (ls: seq<string>)
    ensures |ls| == |h|
    ensures forall i :: 0 <= i < |h| ==> ls[i] == h[i].0 + sep + h[i].1
  {
    if |h| == 0 then [] else [h[0].0 + sep + h[0].1] + HeaderLines(h[1..], sep)
  }

  /** `erase(0, n)`: drop the first `n` characters, or all if there are fewer. */
  function Drop(s: string, n: nat): (r: string)
    ensures |r| == if n <= |s| then |s| - n else 0
  {
    if n <= |s| then s[n..] else []
  }

  /** What `Drop` leaves is the tail of the string: nothing is reordered. */
  lemma DropIsSuffix(s: string, n: nat)
    ensures s == s[..|s| - |Drop(s, n)|] + Drop(s, n)
  {
  }

  // ---------------------------------------------------------------------
  // Request
  // ---------------------------------------------------------------------

  /** The constructor: no headers, no body, version HTTP/1.1. */
  function NewRequest(m: Method, target: string): (r: Request)
    ensures RequestInvariant(r)
    ensures r.httpMethod == m && r.target == target
    ensures r.headers == [] && r.data.size == 0
  {
    Request(m, target, HTTP1_1, [], Buffer([], 0))
  }

  /** `Request::setHeader`: an insert into the header map that never
      replaces an existing value, and touches nothing else. */
  function SetRequestHeader(r: Request, k: string, v: string): (r': Request)
    requires RequestInvariant(r)
    ensures RequestInvariant(r')
    ensures InsertedOnce(r.headers, r'.headers, k, v)
    ensures r'.httpMethod == r.httpMethod && r'.target == r.target && r'.version == r.version && r'.data == r.data
  {
    r.(headers := Insert(r.headers, k, v))
  }

  /** The request line: method name, target and version label, separated
      by single spaces. It holds a carriage return only if the target does,
      and is always long enough to be taken as a header-block line. */
  function RequestLine(r: Request): (l: string)
    ensures |l| > |MethodToString(r.httpMethod)| + |r.target| + 2
    ensures l[..|MethodToString(r.httpMethod)| + 1] == MethodToString(r.httpMethod) + " "
    ensures NoCR(r.target) ==> NoCR(l)
  {
    var m, v := MethodToString(r.httpMethod), VersionToString(r.version);
    var l := m + " " + r.target + " " + v;
    assert forall i :: |m| + 1 + |r.target| + 1 <= i < |l| ==> l[i] == v[i - |m| - |r.target| - 2];
    l
  }

  /** The text part of a serialized request: request line, one "k: v" line
      per header, then the empty line. */
  function RequestText(r: Request): (t: string)
    ensures |t| >= |RequestLine(r)| + 4
    ensures t[..|RequestLine(r)| + 2] == RequestLine(r) + CRLF
    ensures t[|t| - 4..] == CRLF + CRLF
  {
    var ls := [RequestLine(r)] + HeaderLines(r.headers, ": ");
    LinesShape(ls);
    Lines(ls) + CRLF
  }

  /** `Request::serialize`. The buffer is allocated one byte longer than
      text plus body and the body is copied one byte past the text, so the
      byte between them is never written: `gap` stands for whatever the
      allocation held there. The returned count covers the whole buffer. */
  function SerializeRequest(r: Request, gap: char): (w: Wire)
    requires r.data.Valid()
    ensures w.length == |w.buffer| == |RequestText(r)| + 1 + r.data.size
    ensures w.buffer[..|RequestText(r)|] == RequestText(r)
    ensures w.buffer[|RequestText(r)|] == gap
    ensures w.buffer[|RequestText(r)| + 1..] == r.data.bytes
  {
    var text := RequestText(r);
    Wire(text + [gap] + r.data.bytes, |text| + 1 + r.data.size)
  }

  /** The line loop at the top of `Request::deserialize`: while the next
      "\r\n" ends a line longer than two characters, that line is taken and
      removed together with its "\r\n"; then two more characters are
      dropped and what is left is the body.

      So the header block ends at the first line of at most two characters
      (not only at an empty one), or where no "\r\n" follows, and a short
      line that ends it is itself dropped only up to its first two
      characters. */
  function SplitHead(s: string): (p: (seq<string>, string))
    ensures HeadSplit(s, p)
    decreases |s|
  {
    match FindCRLF(s)
    case Some(e) =>
      if e > 2 then
        var q := SplitHead(s[e + 2..]);
        HeadSplitStep(s, e, q);
        ([s[..e]] + q.0, q.1)
      else ([], Drop(s, 2))
    case None => ([], Drop(s, 2))
  }

  /** `p` splits `s` as the line loop does: lines longer than two
      characters without "\r\n", which written back with their "\r\n"
      begin `s`; what is left after them has no "\r\n" or a short line
      first, and the body is that rest less two characters. */
  ghost predicate HeadSplit(s: string, p: (seq<string>, string)) {
    && (forall i :: 0 <= i < |p.0| ==> |p.0[i]| > 2 && NoCRLF(p.0[i]))
    && Lines(p.0) <= s
    && var u := s[|Lines(p.0)|..];
       (FindCRLF(u).None? || FindCRLF(u).value <= 2) && p.1 == Drop(u, 2)
  }

  /** A split of what follows the first line extends to a split of the
      whole string. */
  lemma HeadSplitStep(s: string, e: nat, q: (seq<string>, string))
    requires FindCRLF(s) == Some(e) && e > 2
    requires HeadSplit(s[e + 2..], q)
    ensures HeadSplit(s, ([s[..e]] + q.0, q.1))
  {
    var line := s[..e];
    LineBeforeCRLF(s, e);
    LinesCons(line, q.0);
    assert s[|Lines([line] + q.0)|..] == s[e + 2..][|Lines(q.0)|..];
  }

  /** The text up to the first "\r\n" holds none, and is followed by it. */
  lemma LineBeforeCRLF(s: string, e: nat)
    requires FindCRLF(s) == Some(e)
    ensures NoCRLF(s[..e]) && s == s[..e] + CRLF + s[e + 2..]
  {
    assert forall j :: 0 <= j < e ==> (CrlfAt(s[..e], j) ==> CrlfAt(s, j));
    assert s[e..e + 2] == CRLF;
  }

  lemma LinesCons(line: string, ls: seq<string>)
    ensures Lines([line] + ls) == line + CRLF + Lines(ls)
  {
    assert ([line] + ls)[1..] == ls;
  }

  /** The request line: whitespace tokens, of which the third must be a
      version and the first a method (looked up in that order); the second
      is the target and any further tokens are ignored. The version found
      is not kept. */
  function ParseRequestLine(line: string): (r: Result<(Method, string)>)
    ensures var ts := Tokens(line);
      r.Success? ==> (|ts| >= 3 && MethodToString(r.value.0) == ts[0] && r.value.1 == ts[1]
                      && exists v :: VersionToString(v) == ts[2])
    ensures var ts := Tokens(line);
      r.Failure? <==> |ts| < 3 || (forall v :: VersionToString(v) != ts[2]) || (forall m :: MethodToString(m) != ts[0])
    ensures var ts := Tokens(line);
      |ts| < 3 ==> r == Failure(TooFewTokens(line, 3))
    ensures var ts := Tokens(line);
      |ts| >= 3 && (forall v :: VersionToString(v) != ts[2]) ==> r == Failure(UnknownVersion(ts[2]))
  {
    var ts := Tokens(line);
    if |ts| < 3 then Failure(TooFewTokens(line, 3))
    else
      var v :- StringToVersion(ts[2]);
      assert VersionToString(v) == ts[2];
      var m :- StringToMethod(ts[0]);
      Success((m, ts[1]))
  }

  /** The (key, value) a header line yields: its first two tokens. */
  function HeaderPair(line: string): (string, string)
    requires |Tokens(line)| >= 2
  {
    (Tokens(line)[0], Tokens(line)[1])
  }

  /** The (key, value) of each header line, in order. */
  function HeaderPairs(lines: seq<string>): (es: Entries)
    requires forall i :: 0 <= i < |lines| ==> |Tokens(lines[i])| >= 2
    ensures |es| == |lines|
    ensures forall i :: 0 <= i < |lines| ==> es[i] == (Tokens(lines[i])[0], Tokens(lines[i])[1])
  {
    if |lines| == 0 then [] else [HeaderPair(lines[0])] + HeaderPairs(lines[1..])
  }

  /** The header loop of `Request::deserialize`: each line's first two
      tokens become key and value through `setHeader`; a line with fewer
      than two tokens throws. */
  function ParseHeaderLines(lines: seq<string>, h: Entries): (r: Result<Entries>)
    requires Sorted(h)
    ensures r.Success? <==> forall i :: 0 <= i < |lines| ==> |Tokens(lines[i])| >= 2
    ensures r.Success? ==> r.value == InsertAll(h, HeaderPairs(lines))
    ensures r.Failure? ==> exists i :: 0 <= i < |lines| && r.error == TooFewTokens(lines[i], 2) && |Tokens(lines[i])| < 2
    decreases |lines|
  {
    if |lines| == 0 then Success(h)
    else
      var ts := Tokens(lines[0]);
      if |ts| < 2 then Failure(TooFewTokens(lines[0], 2))
      else
        var r := ParseHeaderLines(lines[1..], Insert(h, ts[0], ts[1]));
        assert forall i :: 1 <= i < |lines| ==> lines[i] == lines[1..][i - 1];
        r
  }

  /** What `Request::deserialize` makes of the header-block lines and the
      body once the line loop is done. It succeeds exactly when there is a
      first line, that line is a request line, and every later line has at
      least two tokens; with no line at all it reports the missing request
      line. A request it returns keeps its invariant, carries the body with
      the string's NUL appended, the method and target named by the first
      two tokens of the request line, and under every key what the header
      lines, inserted in order with the first one kept, give that key. */
  ghost predicate ParsedHead(lines: seq<string>, body: string, r: Result<Request>) {
    && (r.Success? <==> (|lines| > 0 && ParseRequestLine(lines[0]).Success?
                         && forall i :: 1 <= i < |lines| ==> |Tokens(lines[i])| >= 2))
    && (lines == [] ==> r == Failure(NoRequestLine))
    && (r.Success? && |lines| > 0 ==>
          && RequestInvariant(r.value)
          && r.value.data == Buffer(body + ['\0'], |body| + 1)
          && |Tokens(lines[0])| >= 3
          && MethodToString(r.value.httpMethod) == Tokens(lines[0])[0]
          && r.value.target == Tokens(lines[0])[1]
          && forall k :: Lookup(r.value.headers, k) == Lookup(HeaderPairs(lines[1..]), k))
  }

  /** The part of `Request::deserialize` after the line loop: the request
      line, then the header lines, then the body with the string's NUL. */
  function ParseHead(lines: seq<string>, body: string): (r: Result<Request>)
    ensures ParsedHead(lines, body, r)
  {
    if |lines| == 0 then Failure(NoRequestLine)
    else
      var (m, target) :- ParseRequestLine(lines[0]);
      var headers :- ParseHeaderLines(lines[1..], []);
      assert forall i :: 1 <= i < |lines| ==> lines[i] == lines[1..][i - 1];
      Success(Request(m, target, HTTP1_1, headers, Buffer(body + ['\0'], |body| + 1)))
  }

  /** `Request::deserialize`: the line loop, then the request line and the
      header lines. The body is what follows the header block, copied
      together with the string's terminating NUL, so `data_size` is one
      more than the body. */
  function DeserializeRequest(bytes: string): (r: Result<Request>)
    ensures ParsedHead(SplitHead(bytes).0, SplitHead(bytes).1, r)
  {
    var p := SplitHead(bytes);
    ParseHead(p.0, p.1)
  }

  // ---------------------------------------------------------------------
  // Response
  // ---------------------------------------------------------------------

  /** `getDefaultReponseHeaders`, a map built from three pairs. */
  function DefaultResponseHeaders(): (h: Entries)
    ensures Sorted(h) && |h| == 3
    ensures Lookup(h, "Content-Type") == Some("text/html; charset=UTF-8")
    ensures Lookup(h, "Content-Encoding") == Some("UTF-8")
    ensures Lookup(h, "Accept") == Some("*/*")
  {
    var h1 := Insert([], "Content-Type", "text/html; charset=UTF-8");
    var h2 := Insert(h1, "Content-Encoding", "UTF-8");
    Insert(h2, "Accept", "*/*")
  }

  /** The constructor: version HTTP/1.1, the three default headers, no body yet. */
  function NewResponse(code: uint8, text: string): (r: Response)
    ensures ResponseInvariant(r)
    ensures r.statusCode == code && r.statusText == text
    ensures r.headers == DefaultResponseHeaders() && r.data.None?
  {
    Response(HTTP1_1, code, text, DefaultResponseHeaders(), None)
  }

  /** `Response::setHeader`: like the request's, an insert that never
      replaces an existing value. */
  function SetResponseHeader(r: Response, k: string, v: string): (r': Response)
    requires ResponseInvariant(r)
    ensures ResponseInvariant(r')
    ensures InsertedOnce(r.headers, r'.headers, k, v)
    ensures r'.statusCode == r.statusCode && r'.statusText == r.statusText && r'.data == r.data
  {
    r.(headers := Insert(r.headers, k, v))
  }

  /** `Response::setData(d, n)`: `data_size` becomes `n + 1` and a buffer of
      that size receives the first `n` bytes of `d`; its last byte is never
      written, `pad` stands for it. The caller must supply `n` readable
      bytes. */
  function SetData(r: Response, d: seq<char>, n: nat, pad: char): (r': Response)
    requires n <= |d|
    requires ResponseInvariant(r)
    ensures ResponseInvariant(r')
    ensures r'.data.Some? && r'.data.value.size == n + 1
    ensures r'.data.value.bytes[..n] == d[..n] && r'.data.value.bytes[n] == pad
    ensures r'.headers == r.headers && r'.statusCode == r.statusCode && r'.statusText == r.statusText
  {
    r.(data := Some(Buffer(d[..n] + [pad], n + 1)))
  }

  /** `Response::getData`: a copy of `data_size` bytes; undefined before
      `setData`. */
  function GetData(r: Response): (d: Result<seq<char>>)
    requires ResponseInvariant(r)
    ensures d.Failure? <==> r.data.None?
    ensures d.Failure? ==> d.error == DataUnset
    ensures d.Success? ==> |d.value| == r.data.value.size
    ensures d.Success? ==> d.value == r.data.value.bytes
  {
    match r.data
    case None => Failure(DataUnset)
    case Some(b) => Success(b.bytes[..b.size])
  }

  /** The status line: version label, the code in decimal and the status
      text, separated by single spaces. It holds a carriage return only if
      the status text does. */
  function StatusLine(r: Response): (l: string)
    ensures |l| > |VersionToString(r.version)| + |r.statusText| + 2
    ensures l[..|VersionToString(r.version)| + 1] == VersionToString(r.version) + " "
    ensures NoCR(r.statusText) ==> NoCR(l)
  {
    var v, c := VersionToString(r.version), Decimal(r.statusCode as nat);
    var l := v + " " + c + " " + r.statusText;
    assert forall i :: |v| + 1 <= i < |v| + 1 + |c| ==> l[i] == c[i - |v| - 1];
    l
  }

  /** The head of a serialized response: status line, one "k : v" line per
      header, then the empty line. */
  function ResponseHead(r: Response): (t: string)
    ensures |t| >= |StatusLine(r)| + 4
    ensures t[..|StatusLine(r)| + 2] == StatusLine(r) + CRLF
    ensures t[|t| - 4..] == CRLF + CRLF
  {
    var ls := [StatusLine(r)] + HeaderLines(r.headers, " : ");
    LinesShape(ls);
    Lines(ls) + CRLF
  }

  /** `Response::serialize`. The buffer is allocated one byte longer than
      head plus body and that last byte is never written (`tail` stands for
      it); the returned count leaves it out. Before `setData` the body size
      is undefined. */
  function SerializeResponse(r: Response, tail: char): (w: Result<Wire>)
    requires ResponseInvariant(r)
    ensures w.Failure? <==> r.data.None?
    ensures w.Failure? ==> w.error == DataUnset
    ensures w.Success? ==> w.value.length == |ResponseHead(r)| + r.data.value.size
    ensures w.Success? ==> |w.value.buffer| == w.value.length + 1
    ensures w.Success? ==> w.value.buffer[..|ResponseHead(r)|] == ResponseHead(r)
    ensures w.Success? ==> w.value.buffer[|ResponseHead(r)|..w.value.length] == r.data.value.bytes
  {
    match r.data
    case None => Failure(DataUnset)
    case Some(b) =>
      var head := ResponseHead(r);
      Success(Wire(head + b.bytes + [tail], |head| + b.size))
  }
}

=== FILE: mime.dfy ===
/** The MIME table: the media type the server announces for a requested
    resource, chosen by the resource's extension. */
module Mime {
  import opened Errors
  import opened Text

  /** A media type such as text/html. */
  datatype MimeType = MimeType(mediaType: string, subtype: string) {

    /** `MIMEType::toString`: type and subtype joined by '/'. The '/' sits
        right after the type, so the two parts can be read back. */
    function ToString(): (s: string)
      ensures |s| == |mediaType| + 1 + |subtype|
      ensures s[..|mediaType|] == mediaType && s[|mediaType|] == '/' && s[|mediaType| + 1..] == subtype
    {
      mediaType + "/" + subtype
    }
  }

  /** `extMIME`, as the constructor fills it: exactly four extensions,
      each with its leading dot, matched exactly (case included). */
  const Table: map<string, MimeType> := map[
    ".js" := MimeType("text", "javascript"),
    ".css" := MimeType("text", "css"),
    ".html" := MimeType("text", "html"),
    ".ico" := MimeType("image", "x-icon")
  ]

  /** Every string a successful lookup can return. */
  const Announced: set<string> := {"text/javascript", "text/css", "text/html", "image/x-icon"}

  /** A '.' followed by characters none of which is a '.'. */
  predicate IsExtension(e: string) {
    |e| > 0 && e[0] == '.' && forall i :: 1 <= i < |e| ==> e[i] != '.'
  }

  predicate HasDot(s: string) {
    exists i :: 0 <= i < |s| && s[i] == '.'
  }

  /** `resource.substr(resource.find_last_of("."))`: the suffix from the last
      '.', dot included. Without a '.' the position is `npos` and `substr`
      throws, which is `None` here. */
  function Extension(resource: string): (e: Option<string>)
    ensures e.None? <==> !HasDot(resource)
    ensures e.Some? ==> IsExtension(e.value) && |e.value| <= |resource|
                        && resource[|resource| - |e.value|..] == e.value
  {
    match LastIndexOf(resource, '.')
    case None => None
    case Some(i) => Some(resource[i..])
  }

  /** `MIME::getMIMEType`: the media type of the resource's extension;
      no '.' at all, or an extension outside the table, is an error. */
  function GetMimeType(resource: string): (r: Result<string>)
    ensures r.Success? ==> r.value in Announced
    ensures r.Success? <==> Extension(resource).Some? && Extension(resource).value in Table
    ensures r == Failure(NoExtension(resource)) <==> !HasDot(resource)
    ensures r.Failure? && HasDot(resource) ==> r == Failure(UnknownExtension(Extension(resource).value))
  {
    match Extension(resource)
    case None => Failure(NoExtension(resource))
    case Some(ext) =>
      if ext in Table then
        TableContents();
        Success(Table[ext].ToString())
      else Failure(UnknownExtension(ext))
  }

  /** The table holds the four extensions and nothing else, and names
      their types as the constructor does. */
  lemma TableContents()
    ensures Table.Keys == {".js", ".css", ".html", ".ico"}
    ensures Table[".js"].ToString() == "text/javascript"
    ensures Table[".css"].ToString() == "text/css"
    ensures Table[".html"].ToString() == "text/html"
    ensures Table[".ico"].ToString() == "image/x-icon"
    ensures forall e :: e in Table ==> IsExtension(e)
  {
    TableKeys();
    TableTypes();
  }

  lemma TableTypes()
    ensures Table[".js"].ToString() == "text/javascript"
    ensures Table[".css"].ToString() == "text/css"
    ensures Table[".html"].ToString() == "text/html"
    ensures Table[".ico"].ToString() == "image/x-icon"
  {
    assert Table[".js"] == MimeType("text", "javascript");
    assert Table[".css"] == MimeType("text", "css");
    assert Table[".html"] == MimeType("text", "html");
    assert Table[".ico"] == MimeType("image", "x-icon");
  }

  lemma TableKeys()
    ensures Table.Keys == {".js", ".css", ".html", ".ico"}
    ensures forall e :: e in Table ==> IsExtension(e)
  {
    assert IsExtension(".js") && IsExtension(".css") && IsExtension(".html") && IsExtension(".ico");
  }

  /** Two media types whose type part holds no '/' print differently, so
      `ToString` loses nothing. */
  lemma ToStringInjective(a: MimeType, b: MimeType)
    requires forall i :: 0 <= i < |a.mediaType| ==> a.mediaType[i] != '/'
    requires forall i :: 0 <= i < |b.mediaType| ==> b.mediaType[i] != '/'
    requires a.ToString() == b.ToString()
    ensures a == b
  {
    assert |a.mediaType| == |b.mediaType|;
  }

  /** The extension is the one suffix of the resource that starts with a
      '.' and holds no other: whatever precedes it, dots included, does not
      matter. */
  lemma ExtensionOfSuffix(stem: string, ext: string)
    requires IsExtension(ext)
    ensures Extension(stem + ext) == Some(ext)
  {
    var s := stem + ext;
    assert s[|stem|] == '.';
    assert forall j :: |stem| < j < |s| ==> s[j] == ext[j - |stem|];
    assert LastIndexOf(s, '.') == Some(|stem|);
    assert s[|stem|..] == ext;
  }

  /** Any resource ending in a listed extension gets that extension's type. */
  lemma MimeOfKnownExtension(stem: string, ext: string)
    requires ext in Table
    ensures GetMimeType(stem + ext) == Success(Table[ext].ToString())
  {
    TableContents();
    ExtensionOfSuffix(stem, ext);
  }

  /** A resource that ends in a '.' followed by anything outside the table
      fails; upper case does not match ("index.HTML" fails), and neither
      does a dot that belongs to a directory ("assets.v2/readme" fails with
      the extension ".v2/readme"). */
  lemma MimeOfUnlistedExtension(stem: string, ext: string)
    requires IsExtension(ext) && ext !in Table
    ensures GetMimeType(stem + ext) == Failure(UnknownExtension(ext))
  {
    ExtensionOfSuffix(stem, ext);
  }

  /** Extensions are matched case-sensitively: "index.HTML" has no type. */
  lemma UpperCaseExtensionFails(stem: string)
    ensures GetMimeType(stem + ".HTML") == Failure(UnknownExtension(".HTML"))
  {
    TableContents();
    MimeOfUnlistedExtension(stem, ".HTML");
  }

  /** A directory name with a dot above a file without one: the extension
      runs from that dot through the '/', which no listed extension holds. */
  lemma DirectoryDotFails(dir: string, file: string)
    requires !HasDot(file) && '/' in file
    ensures GetMimeType(dir + "." + file) == Failure(UnknownExtension("." + file))
  {
    var ext := "." + file;
    assert IsExtension(ext) by {
      forall i | 1 <= i < |ext|
        ensures ext[i] != '.'
      {
        assert ext[i] == file[i - 1];
      }
    }
    assert '/' in ext by {
      var k :| 0 <= k < |file| && file[k] == '/';
      assert ext[k + 1] == '/';
    }
    TableContents();
    assert dir + "." + file == dir + ext;
    MimeOfUnlistedExtension(dir, ext);
  }
}

=== FILE: roundtrip.dfy ===
/** What serializing and parsing do to each other, and the departures from
    HTTP/1.1 the codec shows when the two are put side by side. */
module HttpRoundTrip {
  import opened Errors
  import opened Text
  import opened Headers
  import opened Http

  /** A line the framing loop of the parser takes as a header-block line:
      longer than two characters and holding no "\r\n". */
  predicate FramedLine(l: string) {
    |l| > 2 && NoCRLF(l)
  }

  /** Every key and every value is a single whitespace-free token. */
  predicate WordHeaders(h: Entries) {
    forall i :: 0 <= i < |h| ==> IsWord(h[i].0) && IsWord(h[i].1)
  }

  /** The entries with ':' appended to every key. */
  function Colonize(h: Entries): (c: Entries)
    ensures |c| == |h|
  {
    if |h| == 0 then [] else [(h[0].0 + ":", h[0].1)] + Colonize(h[1..])
  }

  lemma WordHasNoCR(w: string)
    requires forall i :: 0 <= i < |w| ==> !IsSpace(w[i])
    ensures NoCR(w)
  {
  }

  lemma JoinThree(a: string, b: string, c: string)
    ensures JoinWords([a, b, c]) == a + " " + b + " " + c
  {
    assert [a, b, c][1..] == [b, c];
    assert [b, c][1..] == [c];
    assert JoinWords([c]) == c;
    assert JoinWords([b, c]) == b + " " + c;
    assert JoinWords([a, b, c]) == a + " " + (b + " " + c);
  }

  lemma NoCRJoin(a: string, b: string)
    requires NoCR(a) && NoCR(b)
    ensures NoCR(a + " " + b) && NoCR(a + ": " + b) && NoCR(a + " : " + b)
  {
  }

  /** The first "\r\n" after a line without one is the line's own end. */
  lemma FindAfterLine(l: string, t: string)
    requires NoCRLF(l)
    ensures FindCRLF(l + CRLF + t) == Some(|l|)
  {
    var s := l + CRLF + t;
    assert CrlfAt(s, |l|);
    forall j | 0 <= j < |l|
      ensures !CrlfAt(s, j)
    {
      if j + 1 < |l| {
        assert !CrlfAt(l, j);
      } else {
        assert s[j + 1] == '\r';
      }
    }
    assert !NoCRLF(s);
    var r := FindCRLF(s);
    assert r.Some?;
    assert !(r.value < |l|);
    assert !(r.value > |l|);
  }

  /** The framing loop of the parser takes back exactly the lines written
      with their "\r\n", provided the remainder then starts with a line of
      at most two characters (or has no "\r\n"); the body is the remainder
      less two characters. */
  lemma {:induction false} SplitHeadOfLines(ls: seq<string>, u: string)
    requires forall i :: 0 <= i < |ls| ==> FramedLine(ls[i])
    requires FindCRLF(u).None? || FindCRLF(u).value <= 2
    ensures SplitHead(Lines(ls) + u) == (ls, Drop(u, 2))
  {
    var s := Lines(ls) + u;
    if |ls| == 0 {
      assert s == u;
    } else {
      var l := ls[0];
      var t := Lines(ls[1..]) + u;
      LinesCons(l, ls[1..]);
      assert [l] + ls[1..] == ls;
      assert s == l + CRLF + t;
      SplitHeadOfLines(ls[1..], u);
      SplitHeadAfterLine(l, t);
    }
  }

  /** A framed line and its "\r\n" in front are taken as one more line. */
  lemma SplitHeadAfterLine(l: string, t: string)
    requires FramedLine(l)
    ensures SplitHead(l + CRLF + t) == ([l] + SplitHead(t).0, SplitHead(t).1)
  {
    var s := l + CRLF + t;
    FindAfterLine(l, t);
    assert s[..|l|] == l;
    assert s[|l| + 2..] == t;
  }

  /** A line shorter than three characters ends the header block even when
      it is not empty, and only its first two characters are dropped: what
      follows it, header lines included, becomes the body. */
  lemma ShortLineEndsHeaderBlock(first: string, short: string, rest: string)
    requires FramedLine(first)
    requires |short| <= 2 && NoCRLF(short)
    ensures SplitHead(first + CRLF + short + CRLF + rest) == ([first], (short + CRLF + rest)[2..])
  {
    FindAfterLine(short, rest);
    assert first + CRLF + short + CRLF + rest == Lines([first]) + (short + CRLF + rest);
    SplitHeadOfLines([first], short + CRLF + rest);
  }

  /** A request header line "k: v" tokenizes to the key with its colon
      still attached, then the value. */
  lemma RequestHeaderLineTokens(k: string, v: string)
    requires IsWord(k) && IsWord(v)
    ensures Tokens(k + ": " + v) == [k + ":", v]
  {
    assert k + ": " + v == (k + ":") + " " + v;
    TokensOfWordThen(k + ":", v);
    TokensOfJoinWords([v]);
  }

  /** A response header line "k : v" tokenizes to three tokens: read by the
      request parser, every value would come out as ":". */
  lemma ResponseHeaderLineTokens(k: string, v: string)
    requires IsWord(k) && IsWord(v)
    ensures Tokens(k + " : " + v) == [k, ":", v]
  {
    assert " : " == " " + ":" + " ";
    RegroupAround(k, " ", ":", v);
    TwoWordsThen(k, ":", v);
    TokensOfJoinWords([v]);
    assert [k, ":"] + [v] == [k, ":", v];
  }

  /** Parsing the header lines `Request::serialize` writes inserts each
      entry again, under its key with a colon appended. */
  lemma {:induction false} ParseSerializedHeaders(h: Entries, acc: Entries)
    requires Sorted(acc) && WordHeaders(h)
    ensures ParseHeaderLines(HeaderLines(h, ": "), acc) == Success(InsertAll(acc, Colonize(h)))
    decreases |h|
  {
    if |h| > 0 {
      var lines := HeaderLines(h, ": ");
      RequestHeaderLineTokens(h[0].0, h[0].1);
      assert lines[1..] == HeaderLines(h[1..], ": ");
      assert Colonize(h)[1..] == Colonize(h[1..]);
      ParseSerializedHeaders(h[1..], Insert(acc, h[0].0 + ":", h[0].1));
    }
  }

  /** Looking up the colon-suffixed entries. */
  lemma {:induction false} LookupColonized(h: Entries, j: string)
    ensures Lookup(Colonize(h), j) == if |j| > 0 && j[|j| - 1] == ':' then Lookup(h, j[..|j| - 1]) else None
    decreases |h|
  {
    if |h| > 0 {
      var c := Colonize(h);
      assert c[0].0 == h[0].0 + ":";
      assert c[1..] == Colonize(h[1..]);
      assert (c[0].0 == j) <==> (|j| > 0 && j[|j| - 1] == ':' && j[..|j| - 1] == h[0].0) by {
        if c[0].0 == j {
          assert j[..|j| - 1] == h[0].0;
        }
        if |j| > 0 && j[|j| - 1] == ':' && j[..|j| - 1] == h[0].0 {
          assert j == j[..|j| - 1] + [':'];
        }
      }
      LookupColonized(h[1..], j);
    }
  }

  /** Method names and version labels are single tokens. */
  lemma NamesAreWords(m: Method, v: Version)
    ensures IsWord(MethodToString(m)) && IsWord(VersionToString(v))
  {
  }

  /** The request line written for a request whose target is one token
      parses back to the same method and target. */
  lemma RequestLineParses(r: Request)
    requires r.version == HTTP1_1 && IsWord(r.target)
    ensures ParseRequestLine(RequestLine(r)) == Success((r.httpMethod, r.target))
  {
    var m := MethodToString(r.httpMethod);
    NamesAreWords(r.httpMethod, r.version);
    ThreeWordsTokens(m, r.target, VersionToString(r.version));
    MethodNamesRoundTrip(r.httpMethod);
    VersionNamesRoundTrip(r.version);
  }

  /** Serializing a request whose target, header keys and header values are
      single tokens, and parsing the bytes back, gives the same method and
      target, version HTTP/1.1, the headers re-inserted under their keys
      with ':' appended (the serializer writes "k: v", the parser splits on
      whitespace), and as body the unwritten gap byte, the body, and a NUL. */
  lemma RequestRoundTripValue(r: Request, gap: char)
    requires RequestInvariant(r)
    requires IsWord(r.target) && WordHeaders(r.headers)
    ensures DeserializeRequest(SerializeRequest(r, gap).buffer)
         == Success(Request(r.httpMethod, r.target, HTTP1_1, InsertAll([], Colonize(r.headers)),
                            Buffer([gap] + r.data.bytes + ['\0'], r.data.size + 2)))
  {
    var ls := [RequestLine(r)] + HeaderLines(r.headers, ": ");
    WordHasNoCR(r.target);
    forall i | 0 <= i < |r.headers|
      ensures NoCR(r.headers[i].0) && NoCR(r.headers[i].1) && |r.headers[i].0| + |r.headers[i].1| > 0
    {
      WordHasNoCR(r.headers[i].0);
      WordHasNoCR(r.headers[i].1);
    }
    RequestFraming(r, gap);
    RequestLineParses(r);
    assert ls[0] == RequestLine(r);
    assert ls[1..] == HeaderLines(r.headers, ": ");
    ParseSerializedHeaders(r.headers, []);
  }

  /** The same round trip seen through header lookups: a key `k:` finds
      what `k` held before serialization, and a key without a trailing
      colon finds nothing. The body comes back two bytes longer. */
  lemma RequestRoundTrip(r: Request, gap: char)
    requires RequestInvariant(r)
    requires IsWord(r.target) && WordHeaders(r.headers)
    ensures var d := DeserializeRequest(SerializeRequest(r, gap).buffer);
      && d.Success?
      && d.value.httpMethod == r.httpMethod
      && d.value.target == r.target
      && d.value.version == HTTP1_1
      && d.value.data == Buffer([gap] + r.data.bytes + ['\0'], r.data.size + 2)
      && forall j :: Lookup(d.value.headers, j) ==
           if |j| > 0 && j[|j| - 1] == ':' then Lookup(r.headers, j[..|j| - 1]) else None
  {
    RequestRoundTripValue(r, gap);
    forall j
      ensures Lookup(InsertAll([], Colonize(r.headers)), j) ==
        if |j| > 0 && j[|j| - 1] == ':' then Lookup(r.headers, j[..|j| - 1]) else None
    {
      LookupColonized(r.headers, j);
    }
  }

  /** Without headers the round trip gives back method and target and no
      headers. */
  lemma HeaderlessRoundTrip(r: Request, gap: char)
    requires RequestInvariant(r) && IsWord(r.target) && r.headers == []
    ensures var d := DeserializeRequest(SerializeRequest(r, gap).buffer);
      d.Success? && d.value.httpMethod == r.httpMethod && d.value.target == r.target
      && d.value.version == HTTP1_1 && d.value.headers == []
  {
    RequestRoundTripValue(r, gap);
    assert Colonize(r.headers) == [];
  }

  /** The framing loop takes back the request line and one line per header,
      in key order, and leaves as body the gap byte and the body, for any
      target, keys and values without carriage returns, provided no header
      has both an empty key and an empty value. */
  lemma RequestFraming(r: Request, gap: char)
    requires r.data.Valid() && NoCR(r.target)
    requires forall i :: 0 <= i < |r.headers| ==>
      NoCR(r.headers[i].0) && NoCR(r.headers[i].1) && |r.headers[i].0| + |r.headers[i].1| > 0
    ensures SplitHead(SerializeRequest(r, gap).buffer)
         == ([RequestLine(r)] + HeaderLines(r.headers, ": "), [gap] + r.data.bytes)
  {
    var ls := [RequestLine(r)] + HeaderLines(r.headers, ": ");
    var u := CRLF + ([gap] + r.data.bytes);
    assert SerializeRequest(r, gap).buffer == Lines(ls) + u;
    forall i | 0 <= i < |ls|
      ensures FramedLine(ls[i])
    {
      if i > 0 {
        var e := r.headers[i - 1];
        assert ls[i] == e.0 + ": " + e.1;
        NoCRJoin(e.0, e.1);
      }
      NoCRHasNoCRLF(ls[i]);
    }
    assert FindCRLF(u) == Some(0);
    SplitHeadOfLines(ls, u);
    assert Drop(u, 2) == [gap] + r.data.bytes;
  }

  /** A header with empty key and value is written as the two-character
      line ": ", which ends the header block when the bytes are parsed
      again: everything after it, blank line included, becomes body. */
  lemma EmptyHeaderEndsBlock(r: Request, gap: char)
    requires r.data.Valid() && NoCR(r.target) && r.headers == [("", "")]
    ensures SplitHead(SerializeRequest(r, gap).buffer)
         == ([RequestLine(r)], CRLF + CRLF + ([gap] + r.data.bytes))
  {
    var l := RequestLine(r);
    EmptyHeaderLine(r);
    SerializedBuffer(r, gap);
    NoCRHasNoCRLF(l);
    ShortSecondLine(l, ": ", [gap] + r.data.bytes);
  }

  /** The one header line written for the header ("", ""). */
  lemma EmptyHeaderLine(r: Request)
    requires r.headers == [("", "")]
    ensures [RequestLine(r)] + HeaderLines(r.headers, ": ") == [RequestLine(r), ": "]
  {
    assert r.headers[0].0 + ": " + r.headers[0].1 == ": ";
    assert HeaderLines(r.headers, ": ") == [": "];
  }

  /** The buffer is the text, the gap byte and the body, in that order. */
  lemma SerializedBuffer(r: Request, gap: char)
    requires r.data.Valid()
    ensures SerializeRequest(r, gap).buffer
         == Lines([RequestLine(r)] + HeaderLines(r.headers, ": ")) + CRLF + ([gap] + r.data.bytes)
  {
    var w := SerializeRequest(r, gap).buffer;
    var n := |RequestText(r)|;
    assert w == w[..n] + w[n..];
    assert w[n..] == [w[n]] + w[n + 1..];
  }

  /** Two lines, the second of exactly two characters, then the empty line
      and a body: only the first line is taken, and the empty line is
      left in front of the body. */
  lemma ShortSecondLine(l: string, hl: string, body: string)
    requires FramedLine(l) && |hl| == 2 && NoCRLF(hl)
    ensures SplitHead(Lines([l, hl]) + CRLF + body) == ([l], CRLF + CRLF + body)
  {
    var u := hl + CRLF + (CRLF + body);
    LinesCons(hl, []);
    LinesCons(l, []);
    LinesCons(l, [hl]);
    assert [l] + [hl] == [l, hl] && [hl] + [] == [hl] && [l] + [] == [l];
    assert Lines([l, hl]) + CRLF + body == Lines([l]) + u;
    FindAfterLine(hl, CRLF + body);
    SplitHeadOfLines([l], u);
    assert Drop(u, 2) == CRLF + (CRLF + body);
    assert CRLF + (CRLF + body) == CRLF + CRLF + body;
  }

  /** A request built by the constructor alone serializes to its request
      line, "\r\n\r\n" and the one unwritten byte. */
  lemma FreshRequestWire(m: Method, target: string, gap: char)
    ensures SerializeRequest(NewRequest(m, target), gap).buffer
         == MethodToString(m) + " " + target + " HTTP/1.1\r\n\r\n" + [gap]
  {
    var r := NewRequest(m, target);
    var l := RequestLine(r);
    var v := VersionToString(r.version);
    SerializedBuffer(r, gap);
    assert [l] + HeaderLines(r.headers, ": ") == [l];
    LinesCons(l, []);
    assert [l] + [] == [l] && l + CRLF + Lines([]) == l + CRLF;
    assert l == MethodToString(m) + " " + target + " " + v;
    assert " " + v + CRLF + CRLF == " HTTP/1.1\r\n\r\n";
    Regroup5(MethodToString(m), " ", target, v, CRLF, [gap]);
  }

  lemma Regroup5<T>(a: seq<T>, sep: seq<T>, b: seq<T>, v: seq<T>, c: seq<T>, g: seq<T>)
    ensures a + sep + b + sep + v + c + c + g == a + sep + b + (sep + v + c + c) + g
  {
  }

  /** Setting a header that is already present changes nothing: of two
      `setHeader` calls with one key, the first value stays. */
  lemma FirstHeaderWins(r: Request, k: string, v1: string, v2: string)
    requires RequestInvariant(r) && Lookup(r.headers, k).None?
    ensures Lookup(SetRequestHeader(SetRequestHeader(r, k, v1), k, v2).headers, k) == Some(v1)
  {
  }

  /** The unwritten byte is the only one the allocation's old contents
      decide: two serializations of one request differ at most there. */
  lemma GapIsTheOnlyUnwrittenByte(r: Request, g1: char, g2: char)
    requires r.data.Valid()
    ensures var w1 := SerializeRequest(r, g1); var w2 := SerializeRequest(r, g2);
      && w1.length == w2.length
      && forall i :: 0 <= i < w1.length && i != |RequestText(r)| ==> w1.buffer[i] == w2.buffer[i]
  {
  }

  /** The default headers, iterated in ascending key order. */
  lemma DefaultHeadersInOrder()
    ensures DefaultResponseHeaders() == [("Accept", "*/*"), ("Content-Encoding", "UTF-8"), ("Content-Type", "text/html; charset=UTF-8")]
  {
    var h1 := Insert([], "Content-Type", "text/html; charset=UTF-8");
    DefaultKeysAscend();
    InsertBelowFirst(h1, "Content-Encoding", "UTF-8");
    InsertBelowFirst([("Content-Encoding", "UTF-8")] + h1, "Accept", "*/*");
  }

  /** The three default keys in the order `std::string` compares them. */
  lemma DefaultKeysAscend()
    ensures Less("Accept", "Content-Encoding") && Less("Content-Encoding", "Content-Type")
  {
    assert Less("Encoding", "Type");
    LessAfterPrefix("Content-", "Encoding", "Type");
    assert "Content-" + "Encoding" == "Content-Encoding";
    assert "Content-" + "Type" == "Content-Type";
  }

  /** `setHeader` on a fresh response cannot change a default: setting
      Content-Type (as the connection handler does for "/favicon.ico")
      leaves "text/html; charset=UTF-8". */
  lemma DefaultContentTypeKept(code: uint8, text: string, v: string)
    ensures Lookup(SetResponseHeader(NewResponse(code, text), "Content-Type", v).headers, "Content-Type")
         == Some("text/html; charset=UTF-8")
  {
  }

  /** Reading the body back after `setData(d, n)` yields the `n` bytes and
      then the byte `setData` allocates but never writes. */
  lemma GetDataAfterSetData(r: Response, d: seq<char>, n: nat, pad: char)
    requires ResponseInvariant(r) && n <= |d|
    ensures GetData(SetData(r, d, n, pad)) == Success(d[..n] + [pad])
  {
    assert (d[..n] + [pad])[..n + 1] == d[..n] + [pad];
  }

  /** The bytes a response reports (its first `length`) are the head, the
      `n` data bytes and the byte `setData` never wrote, so that byte is
      sent; the allocation holds one more unwritten byte past them. */
  lemma ResponseSendsUnwrittenByte(r: Response, d: seq<char>, n: nat, pad: char, tail: char)
    requires ResponseInvariant(r) && n <= |d|
    ensures var r' := SetData(r, d, n, pad);
      var w := SerializeResponse(r', tail);
      && w.Success?
      && w.value.buffer[..w.value.length] == ResponseHead(r') + d[..n] + [pad]
      && w.value.buffer[w.value.length] == tail
  {
    var r' := SetData(r, d, n, pad);
    var head := ResponseHead(r');
    assert (head + (d[..n] + [pad]) + [tail])[..|head| + n + 1] == head + d[..n] + [pad];
  }

  /** A fresh response's status line is "HTTP/1.1", a space, the code in
      decimal, a space and the status text, byte for byte. */
  lemma FreshStatusLine(code: uint8, text: string)
    ensures StatusLine(NewResponse(code, text)) == "HTTP/1.1 " + Decimal(code as nat) + " " + text
  {
    assert "HTTP/1.1" + " " == "HTTP/1.1 ";
    Regroup("HTTP/1.1", " ", Decimal(code as nat), text);
  }

  /** The response's status line: the version label, then the code as a
      decimal numeral that reads back as the code, then the words of the
      status text. */
  lemma StatusLineTokens(r: Response)
    requires r.version == HTTP1_1
    ensures var ts := Tokens(StatusLine(r));
      && |ts| >= 2 && ts[0] == "HTTP/1.1"
      && IsNumeral(ts[1]) && DigitsValue(ts[1]) == r.statusCode as int
      && |ts[1]| <= 3
      && ts[2..] == Tokens(r.statusText)
  {
    var c := Decimal(r.statusCode as nat);
    var v := VersionToString(r.version);
    DecimalOfByte(r.statusCode as nat);
    assert IsWord(c);
    TwoWordsThen(v, c, r.statusText);
  }

  /** Two words, each followed by a space, in front of any text. */
  lemma TwoWordsThen(a: string, b: string, t: string)
    requires IsWord(a) && IsWord(b)
    ensures Tokens(a + " " + b + " " + t) == [a, b] + Tokens(t)
  {
    Regroup(a, " ", b, t);
    TokensOfWordThen(a, b + " " + t);
    TokensOfWordThen(b, t);
  }

  lemma RegroupAround<T>(a: seq<T>, sep: seq<T>, c: seq<T>, t: seq<T>)
    ensures a + (sep + c + sep) + t == a + sep + c + sep + t
  {
  }

  lemma Regroup<T>(a: seq<T>, sep: seq<T>, b: seq<T>, t: seq<T>)
    ensures a + sep + b + sep + t == a + sep + (b + sep + t)
  {
  }

  /** The framing loop of the request parser, applied to the bytes a
      response reports, finds the status line and one line per header in
      key order, and then exactly the body: the layout is self-delimiting
      whenever the text, keys and values hold no carriage return. */
  lemma ResponseFraming(r: Response, tail: char)
    requires ResponseInvariant(r) && r.data.Some?
    requires NoCR(r.statusText)
    requires forall i :: 0 <= i < |r.headers| ==> NoCR(r.headers[i].0) && NoCR(r.headers[i].1)
    ensures var w := SerializeResponse(r, tail).value;
      SplitHead(w.buffer[..w.length]) == ([StatusLine(r)] + HeaderLines(r.headers, " : "), r.data.value.bytes)
  {
    var ls := [StatusLine(r)] + HeaderLines(r.headers, " : ");
    var b := r.data.value.bytes;
    var w := SerializeResponse(r, tail).value;
    assert w.buffer[..w.length] == Lines(ls) + (CRLF + b);
    forall i | 0 <= i < |ls|
      ensures FramedLine(ls[i])
    {
      if i == 0 {
        assert NoCR(StatusLine(r));
      } else {
        var e := r.headers[i - 1];
        assert ls[i] == e.0 + " : " + e.1;
        assert NoCR(ls[i]);
      }
      NoCRHasNoCRLF(ls[i]);
    }
    assert FindCRLF(CRLF + b) == Some(0);
    SplitHeadOfLines(ls, CRLF + b);
  }

  // ---------------------------------------------------------------------
  // Request lines and header lines the parser sees
  // ---------------------------------------------------------------------

  /** Any framed line followed by "\r\n" is taken as the only header-block
      line when the remainder starts with a short line or holds no "\r\n". */
  lemma FrameOneLine(l: string, u: string)
    requires FramedLine(l)
    requires FindCRLF(u).None? || FindCRLF(u).value <= 2
    ensures SplitHead(l + CRLF + u) == ([l], Drop(u, 2))
  {
    assert Lines([l]) == l + CRLF;
    SplitHeadOfLines([l], u);
  }

  lemma ThreeWordsLine(a: string, b: string, c: string)
    requires IsWord(a) && IsWord(b) && IsWord(c)
    ensures FramedLine(a + " " + b + " " + c)
    ensures Tokens(a + " " + b + " " + c) == [a, b, c]
  {
    ThreeWordsTokens(a, b, c);
    ThreeWordsNoCRLF(a, b, c);
  }

  lemma ThreeWordsTokens(a: string, b: string, c: string)
    requires IsWord(a) && IsWord(b) && IsWord(c)
    ensures Tokens(a + " " + b + " " + c) == [a, b, c]
  {
    JoinThree(a, b, c);
    TokensOfJoinWords([a, b, c]);
  }

  lemma ThreeWordsNoCRLF(a: string, b: string, c: string)
    requires IsWord(a) && IsWord(b) && IsWord(c)
    ensures NoCRLF(a + " " + b + " " + c)
  {
    var l := a + " " + b + " " + c;
    WordHasNoCR(a);
    WordHasNoCR(b);
    WordHasNoCR(c);
    NoCRJoin(b, c);
    NoCRJoin(a, b + " " + c);
    assert l == a + " " + (b + " " + c);
    NoCRHasNoCRLF(l);
  }

  lemma ParseThreeWords(a: string, b: string, c: string, u: string)
    requires IsWord(a) && IsWord(b) && IsWord(c)
    requires FindCRLF(u).None? || FindCRLF(u).value <= 2
    ensures SplitHead(a + " " + b + " " + c + CRLF + u) == ([a + " " + b + " " + c], Drop(u, 2))
    ensures Tokens(a + " " + b + " " + c) == [a, b, c]
  {
    ThreeWordsLine(a, b, c);
    FrameOneLine(a + " " + b + " " + c, u);
  }

  /** Parsing input whose only header-block line is three words: the
      version word is looked up first, then the method word; the version
      found is dropped, and the body is what follows the line, less two
      characters, plus a NUL. */
  lemma DeserializeRequestLineOnly(a: string, b: string, c: string, u: string)
    requires IsWord(a) && IsWord(b) && IsWord(c)
    requires FindCRLF(u).None? || FindCRLF(u).value <= 2
    ensures DeserializeRequest(a + " " + b + " " + c + CRLF + u)
         == if StringToVersion(c).Failure? then Failure(UnknownVersion(c))
            else if StringToMethod(a).Failure? then Failure(UnknownMethod(a))
            else Success(Request(StringToMethod(a).value, b, HTTP1_1, [], Buffer(Drop(u, 2) + ['\0'], |Drop(u, 2)| + 1)))
  {
    ParseThreeWords(a, b, c, u);
    assert [a + " " + b + " " + c][1..] == [];
  }

  /** The version token is looked up before the method token: when it is
      unknown the parse fails on it, whatever the method token says. */
  lemma VersionCheckedFirst(a: string, b: string, c: string, u: string)
    requires IsWord(a) && IsWord(b) && IsWord(c)
    requires FindCRLF(u).None? || FindCRLF(u).value <= 2
    requires forall v :: VersionToString(v) != c
    ensures DeserializeRequest(a + " " + b + " " + c + CRLF + u) == Failure(UnknownVersion(c))
  {
    DeserializeRequestLineOnly(a, b, c, u);
  }

  /** With a known version, an unknown method token is an error, not a
      request. */
  lemma UnknownMethodFails(a: string, b: string, v: Version, u: string)
    requires IsWord(a) && IsWord(b)
    requires FindCRLF(u).None? || FindCRLF(u).value <= 2
    requires forall m :: MethodToString(m) != a
    ensures DeserializeRequest(a + " " + b + " " + VersionToString(v) + CRLF + u) == Failure(UnknownMethod(a))
  {
    NamesAreWords(GET, v);
    VersionNamesRoundTrip(v);
    DeserializeRequestLineOnly(a, b, VersionToString(v), u);
  }

  /** Any of the three versions is accepted, and the request says HTTP/1.1
      whichever was sent. */
  lemma ParsedVersionDiscarded(m: Method, b: string, v: Version, u: string)
    requires IsWord(b)
    requires FindCRLF(u).None? || FindCRLF(u).value <= 2
    ensures DeserializeRequest(MethodToString(m) + " " + b + " " + VersionToString(v) + CRLF + u)
         == Success(Request(m, b, HTTP1_1, [], Buffer(Drop(u, 2) + ['\0'], |Drop(u, 2)| + 1)))
  {
    NamesAreWords(m, v);
    MethodNamesRoundTrip(m);
    VersionNamesRoundTrip(v);
    DeserializeRequestLineOnly(MethodToString(m), b, VersionToString(v), u);
  }

  /** A request line of a method name, a one-token target and a version
      label parses to that method and target. */
  lemma NamedRequestLineParses(m: Method, b: string, v: Version)
    requires IsWord(b)
    ensures ParseRequestLine(MethodToString(m) + " " + b + " " + VersionToString(v)) == Success((m, b))
  {
    NamesAreWords(m, v);
    ThreeWordsTokens(MethodToString(m), b, VersionToString(v));
    MethodNamesRoundTrip(m);
    VersionNamesRoundTrip(v);
  }

  /** Two framed lines and the empty line: both lines are taken and the
      body is empty. */
  lemma TwoLinesFrame(l: string, hl: string)
    requires FramedLine(l) && FramedLine(hl)
    ensures SplitHead(l + CRLF + hl + CRLF + CRLF) == ([l, hl], [])
  {
    assert [l, hl][1..] == [hl] && [hl][1..] == [];
    assert Lines([hl]) == hl + CRLF + Lines([]);
    assert Lines([l, hl]) == l + CRLF + Lines([hl]);
    assert l + CRLF + hl + CRLF + CRLF == Lines([l, hl]) + CRLF;
    SplitHeadOfLines([l, hl], CRLF);
    assert Drop(CRLF, 2) == [];
  }

  /** One "k: x" line parses to the single entry ("k:", x). */
  lemma OneHeaderParses(k: string, x: string)
    requires IsWord(k) && IsWord(x)
    ensures ParseHeaderLines([k + ": " + x], []) == Success([(k + ":", x)])
  {
    RequestHeaderLineTokens(k, x);
    assert [k + ": " + x][1..] == [];
    assert HeaderPairs([k + ": " + x]) == [(k + ":", x)];
  }

  /** A request line followed by one "k: x" line and the empty line: the
      header is stored under "k:", colon included ("Host: x" gives the key
      "Host:"), and the body holds only the NUL. */
  lemma HeaderKeyKeepsColon(m: Method, b: string, v: Version, k: string, x: string)
    requires IsWord(b) && IsWord(k) && IsWord(x)
    ensures DeserializeRequest(MethodToString(m) + " " + b + " " + VersionToString(v) + CRLF
                               + (k + ": " + x) + CRLF + CRLF)
         == Success(Request(m, b, HTTP1_1, [(k + ":", x)], Buffer("\0", 1)))
  {
    var l := MethodToString(m) + " " + b + " " + VersionToString(v);
    var hl := k + ": " + x;
    NamesAreWords(m, v);
    ThreeWordsNoCRLF(MethodToString(m), b, VersionToString(v));
    WordHasNoCR(k);
    WordHasNoCR(x);
    NoCRJoin(k, x);
    NoCRHasNoCRLF(hl);
    TwoLinesFrame(l, hl);
    NamedRequestLineParses(m, b, v);
    OneHeaderParses(k, x);
    TwoLinesParse(l, hl, m, b, [(k + ":", x)]);
  }

  /** A request line and the header lines after it, with no body left. */
  lemma TwoLinesParse(l: string, hl: string, m: Method, b: string, h: Entries)
    requires ParseRequestLine(l) == Success((m, b))
    requires ParseHeaderLines([hl], []) == Success(h)
    ensures ParseHead([l, hl], []) == Success(Request(m, b, HTTP1_1, h, Buffer("\0", 1)))
  {
    assert [l, hl][1..] == [hl];
    assert [] + ['\0'] == "\0";
  }
}

=== FILE: text.dfy ===
/** String primitives the codec is built from: whitespace tokenizing as done
    by `operator>>` on a `std::stringstream`, the search for "\r\n" done by
    `std::string::find`, `find_last_of`, `std::to_string` on a small
    unsigned value, and the ordering `std::map<std::string, _>` keeps its
    keys in. A `char` stands for one byte of the C++ strings. */
module Text {
  import opened Errors

  const CRLF: string := "\r\n"

  /** The characters `std::isspace` accepts in the "C" locale; these are
      what `stream >> token` skips and stops at. */
  predicate IsSpace(c: char) {
    c == ' ' || c == '\t' || c == '\n' || c == '\U{B}' || c == '\U{C}' || c == '\r'
  }

  /** A non-empty run of non-whitespace characters: what one `>>` extracts. */
  predicate IsWord(w: string) {
    |w| > 0 && forall i :: 0 <= i < |w| ==> !IsSpace(w[i])
  }

  predicate NoCR(s: string) {
    forall i :: 0 <= i < |s| ==> s[i] != '\r'
  }

  // ---------------------------------------------------------------------
  // Tokenizing
  // ---------------------------------------------------------------------

  /** `s` with its leading whitespace removed. */
  function SkipSpaces(s: string): (r: string)
    ensures |r| <= |s|
    ensures r == [] || !IsSpace(r[0])
  {
    if |s| > 0 && IsSpace(s[0]) then SkipSpaces(s[1..]) else s
  }

  /** Length of the longest whitespace-free prefix of `s`. */
  function WordLength(s: string): (n: nat)
    ensures n <= |s|
    ensures forall i :: 0 <= i < n ==> !IsSpace(s[i])
    ensures n == |s| || IsSpace(s[n])
  {
    if |s| > 0 && !IsSpace(s[0]) then 1 + WordLength(s[1..]) else 0
  }

  /** The tokens `while (line >> token) tokens.push_back(token);` collects:
      the maximal whitespace-free runs of `s`, in order. */
  function Tokens(s: string): (ts: seq<string>)
    ensures forall i :: 0 <= i < |ts| ==> IsWord(ts[i])
    decreases |s|
  {
    var t := SkipSpaces(s);
    if t == [] then []
    else
      var n := WordLength(t);
      assert n > 0 by { assert !IsSpace(t[0]); }
      var w := t[..n];
      assert IsWord(w);
      var rest := Tokens(t[n..]);
      [w] + rest
  }

  /** Words separated by single spaces. */
  function JoinWords(ws: seq<string>): string {
    if |ws| == 0 then []
    else if |ws| == 1 then ws[0]
    else ws[0] + " " + JoinWords(ws[1..])
  }

  /** `s` with every whitespace character deleted. */
  function Squeeze(s: string): string {
    if |s| == 0 then []
    else if IsSpace(s[0]) then Squeeze(s[1..])
    else [s[0]] + Squeeze(s[1..])
  }

  function Concat(ws: seq<string>): string {
    if |ws| == 0 then [] else ws[0] + Concat(ws[1..])
  }

  predicate AllSpace(g: string) {
    forall i :: 0 <= i < |g| ==> IsSpace(g[i])
  }

  /** Skipping whitespace removes exactly a whitespace run that is followed
      by a non-space (or nothing). */
  lemma {:induction false} SkipSpacesOfSpace(g: string, t: string)
    requires AllSpace(g) && (t == [] || !IsSpace(t[0]))
    ensures SkipSpaces(g + t) == t
    decreases |g|
  {
    if |g| == 0 {
      assert g + t == t;
    } else {
      assert (g + t)[0] == g[0];
      assert (g + t)[1..] == g[1..] + t;
      SkipSpacesOfSpace(g[1..], t);
    }
  }

  /** A line of whitespace only holds no token. */
  lemma TokensOfSpace(g: string)
    requires AllSpace(g)
    ensures Tokens(g) == []
  {
    SkipSpacesOfSpace(g, []);
    assert g + [] == g;
  }

  /** Tokens are the longest whitespace-free runs: after any whitespace
      (spaces, tabs, several or none), a word that is followed by
      whitespace or by the end is one whole token, and tokenizing goes on
      after it. */
  lemma TokensOfSpacedWord(g: string, w: string, r: string)
    requires AllSpace(g) && IsWord(w) && (r == [] || IsSpace(r[0]))
    ensures Tokens(g + w + r) == [w] + Tokens(r)
  {
    assert g + w + r == g + (w + r);
    assert (w + r)[0] == w[0];
    SkipSpacesOfSpace(g, w + r);
    WordOfPrefix(w, r);
    assert (w + r)[..|w|] == w && (w + r)[|w|..] == r;
  }

  lemma {:induction false} TokensOfLeadingSpace(s: string)
    requires |s| > 0 && IsSpace(s[0])
    ensures Tokens(s) == Tokens(s[1..])
  {
    assert SkipSpaces(s) == SkipSpaces(s[1..]);
  }

  /** A word followed by a space and anything: the word is the first token
      and the rest is tokenized on its own. */
  lemma {:induction false} TokensOfWordThen(w: string, s: string)
    requires IsWord(w)
    ensures Tokens(w + " " + s) == [w] + Tokens(s)
  {
    var x := w + " " + s;
    var rest := " " + s;
    assert x == w + rest;
    assert SkipSpaces(x) == x;
    WordOfPrefix(w, rest);
    assert x[..|w|] == w;
    assert x[|w|..] == rest;
    TokensOfLeadingSpace(rest);
    assert rest[1..] == s;
  }

  /** Tokenizing undoes joining with single spaces, as long as every piece
      is a word. */
  lemma {:induction false} TokensOfJoinWords(ws: seq<string>)
    requires forall i :: 0 <= i < |ws| ==> IsWord(ws[i])
    ensures Tokens(JoinWords(ws)) == ws
  {
    if |ws| == 1 {
      var w := ws[0];
      assert SkipSpaces(w) == w;
      WordOfPrefix(w, []);
      assert w + [] == w;
      assert w[..|w|] == w && w[|w|..] == [];
    } else if |ws| > 1 {
      TokensOfWordThen(ws[0], JoinWords(ws[1..]));
      TokensOfJoinWords(ws[1..]);
    }
  }

  lemma {:induction false} WordOfPrefix(w: string, rest: string)
    requires IsWord(w)
    requires rest == [] || IsSpace(rest[0])
    ensures WordLength(w + rest) == |w|
    decreases |w|
  {
    assert (w + rest)[0] == w[0];
    if |w| > 1 {
      assert (w + rest)[1..] == w[1..] + rest;
      WordOfPrefix(w[1..], rest);
    } else {
      assert (w + rest)[1..] == rest;
    }
  }

  /** The tokens, put back together, are exactly the non-whitespace
      characters of the line: nothing is lost or invented between tokens. */
  lemma {:induction false} TokensCoverLine(s: string)
    ensures Concat(Tokens(s)) == Squeeze(s)
    decreases |s|
  {
    var t := SkipSpaces(s);
    SqueezeSkipsSpaces(s);
    if t != [] {
      var n := WordLength(t);
      assert t == t[..n] + t[n..];
      SqueezeAppend(t[..n], t[n..]);
      SqueezeOfWord(t[..n]);
      TokensCoverLine(t[n..]);
    }
  }

  lemma {:induction false} SqueezeSkipsSpaces(s: string)
    ensures Squeeze(s) == Squeeze(SkipSpaces(s))
    decreases |s|
  {
    if |s| > 0 && IsSpace(s[0]) {
      SqueezeSkipsSpaces(s[1..]);
    }
  }

  lemma {:induction false} SqueezeAppend(a: string, b: string)
    ensures Squeeze(a + b) == Squeeze(a) + Squeeze(b)
    decreases |a|
  {
    if |a| > 0 {
      assert (a + b)[1..] == a[1..] + b;
      SqueezeAppend(a[1..], b);
    } else {
      assert a + b == b;
    }
  }

  lemma {:induction false} SqueezeOfWord(w: string)
    requires forall i :: 0 <= i < |w| ==> !IsSpace(w[i])
    ensures Squeeze(w) == w
    decreases |w|
  {
    if |w| > 0 {
      SqueezeOfWord(w[1..]);
      assert w == [w[0]] + w[1..];
    }
  }

  // ---------------------------------------------------------------------
  // Searching
  // ---------------------------------------------------------------------

  /** A "\r\n" starts at index `i` of `s`. */
  predicate CrlfAt(s: string, i: int) {
    0 <= i && i + 1 < |s| && s[i] == '\r' && s[i + 1] == '\n'
  }

  predicate NoCRLF(s: string) {
    forall i :: 0 <= i < |s| ==> !CrlfAt(s, i)
  }

  /** `s.find("\r\n")`: the first index where "\r\n" starts, if any. */
  function FindCRLF(s: string): (r: Option<nat>)
    ensures r.Some? ==> CrlfAt(s, r.value) && forall j :: 0 <= j < r.value ==> !CrlfAt(s, j)
    ensures r.None? ==> NoCRLF(s)
  {
    if |s| < 2 then None
    else if s[0] == '\r' && s[1] == '\n' then Some(0)
    else
      match FindCRLF(s[1..])
      case None => (assert forall j :: CrlfAt(s, j) ==> CrlfAt(s[1..], j - 1); None)
      case Some(i) => (assert forall j :: 0 < j <= i ==> (CrlfAt(s, j) ==> CrlfAt(s[1..], j - 1)); Some(i + 1))
  }

  /** A string without carriage returns cannot hold a "\r\n". */
  lemma NoCRHasNoCRLF(s: string)
    requires NoCR(s)
    ensures NoCRLF(s)
  {
  }

  /** `s.find_last_of(c)`: the last index holding `c`, if any. */
  function LastIndexOf(s: string, c: char): (r: Option<nat>)
    ensures r.Some? ==> r.value < |s| && s[r.value] == c && forall j :: r.value < j < |s| ==> s[j] != c
    ensures r.None? ==> forall j :: 0 <= j < |s| ==> s[j] != c
  {
    if |s| == 0 then None
    else if s[|s| - 1] == c then Some(|s| - 1)
    else LastIndexOf(s[..|s| - 1], c)
  }

  // ---------------------------------------------------------------------
  // Decimal numerals
  // ---------------------------------------------------------------------

  predicate IsDigit(c: char) {
    '0' <= c <= '9'
  }

  predicate IsNumeral(s: string) {
    |s| > 0 && forall i :: 0 <= i < |s| ==> IsDigit(s[i])
  }

  /** The value of a string of decimal digits, most significant first. */
  function DigitsValue(s: string): nat
    requires forall i :: 0 <= i < |s| ==> IsDigit(s[i])
  {
    if |s| == 0 then 0
    else
      var d := s[|s| - 1];
      assert IsDigit(d);
      DigitsValue(s[..|s| - 1]) * 10 + (d as int - '0' as int)
  }

  function Digit(d: nat): (c: char)
    requires d < 10
    ensures IsDigit(c) && c as int - '0' as int == d
  {
    (d + '0' as int) as char
  }

  /** `std::to_string(n)`: the shortest decimal numeral denoting `n`. */
  function Decimal(n: nat): (s: string)
    ensures IsNumeral(s) && DigitsValue(s) == n
    ensures |s| > 1 ==> s[0] != '0'
    ensures n < 10 ==> |s| == 1
    ensures n >= 10 ==> |s| == |Decimal(n / 10)| + 1
  {
    if n < 10 then [Digit(n)]
    else
      var s := Decimal(n / 10) + [Digit(n % 10)];
      assert s[..|s| - 1] == Decimal(n / 10);
      s
  }

  /** A value that fits in 8 bits prints in one to three digits. */
  lemma {:induction false} DecimalOfByte(n: nat)
    requires n < 256
    ensures 1 <= |Decimal(n)| <= 3
  {
    if n >= 10 {
      assert n / 10 < 26;
      if n / 10 >= 10 {
        assert |Decimal(n / 10 / 10)| == 1;
      }
    }
  }

  // ---------------------------------------------------------------------
  // Ordering
  // ---------------------------------------------------------------------

  /** `a < b` for `std::string`: lexicographic by character code, a proper
      prefix coming first. */
  predicate Less(a: string, b: string) {
    if |a| == 0 then |b| > 0
    else |b| > 0 && (a[0] < b[0] || (a[0] == b[0] && Less(a[1..], b[1..])))
  }

  lemma {:induction false} LessIrreflexive(a: string)
    ensures !Less(a, a)
  {
    if |a| > 0 {
      LessIrreflexive(a[1..]);
    }
  }

  lemma {:induction false} LessTransitive(a: string, b: string, c: string)
    requires Less(a, b) && Less(b, c)
    ensures Less(a, c)
  {
    if |a| > 0 && a[0] == b[0] && b[0] == c[0] {
      LessTransitive(a[1..], b[1..], c[1..]);
    }
  }

  /** A common prefix does not change the order. */
  lemma {:induction false} LessAfterPrefix(p: string, a: string, b: string)
    requires Less(a, b)
    ensures Less(p + a, p + b)
    decreases |p|
  {
    if |p| > 0 {
      LessAfterPrefix(p[1..], a, b);
      assert (p + a)[0] == p[0] == (p + b)[0];
      assert (p + a)[1..] == p[1..] + a && (p + b)[1..] == p[1..] + b;
    } else {
      assert p + a == a && p + b == b;
    }
  }

  lemma {:induction false} LessTotal(a: string, b: string)
    requires a != b
    ensures Less(a, b) || Less(b, a)
  {
    if |a| > 0 && |b| > 0 && a[0] == b[0] {
      assert a == [a[0]] + a[1..] && b == [b[0]] + b[1..];
      LessTotal(a[1..], b[1..]);
    }
  }
}
